=== FILE: README.md ===
# Event and ticket-release creation: validation and wizard model

This project models the core of an event-ticketing front end's creation
workflow. An organiser goes through a four-step wizard: event details,
ticket release, ticket types, then review and submit.

- The event-details form and the ticket-release form are checked by
  declarative schemas. The release schema has per-field rules, two
  whole-record rules and a promo-code rule that applies only to reserved
  releases.
- The wizard keeps its step and an accumulated draft in a store. It stores
  the release only when validation reports nothing. It sends the whole
  draft as one request at the last step.

Modules:

- `Common`: `Option`, the `(field, message)` error entry, JavaScript's
  string length (UTF-16 code units), and the rule shapes both schemas use
  (required string with length bounds, required number with a minimum).
- `Types`: the form shapes, the post-request shapes (dates as numbers), the
  composite workflow requests, the notification and cancellation
  enumerations, and the initial form values. In the form shapes, date
  strings are read as epoch milliseconds or absent, and a cleared number
  input or team selection is absent.
- `TicketReleaseValidation`: the release schema as `Validate(form, now)`, a
  set of `(field, message)` errors with every test evaluated. `Acceptable`
  is an independent statement of when a release may be stored, and
  `ValidateAcceptsExactly` proves the two agree. It also holds the
  standalone promo-code schema, one lemma per rule, and the schema as
  written (see Findings).
- `EventValidation`: the event-details schema, in the same form.
- `CreateEventPage`: the step-to-view case split, the range check, and the
  class `EventCreation`. That class holds the store's `currentStep`, `form`
  and `success`, plus the page's handlers and effects.

Time is an integer number of milliseconds. The validation time `now` is a
parameter, where the source reads the clock in each future test; all future
tests of one validation are taken to share one `now`. The open-window duration is in
minutes and is multiplied by 60 000.

The forms are validated through the form library (Formik). It hands the
values to the schema library (Yup) with every empty string replaced by
undefined, and it collects every error (no early abort). The model
validates those prepared values. The library version is not in the
source; the model assumes Yup 1.x. There, a value that fails its internal
presence test skips the remaining tests. Yup 0.32 would instead still run
custom tests on an undefined value, so an absent open or close time would
also get its future message. Which releases and events are accepted is the
same under both. The behaviour the model relies on:

- An empty text field gets only its "required" message. Its length tests
  are skipped, because the value is absent. For example, an empty name is
  reported only as missing.
- An absent required value gets only its "required" message. The library
  stops at the missing value, so the value's other tests do not run. This
  covers an empty date string and a cleared number input. So an empty event
  date gets only "Date is required", and an absent open time only "Open is
  required".
- Length bounds compare JavaScript's length, which counts UTF-16 code units.
  A character outside the Basic Multilingual Plane counts twice.
- A present `close` with an absent `open` fails "Close must be after open",
  because comparing with an undefined date is false.
- A zero open-window duration is falsy. The open-window rule treats it as
  absent.
- A null location gets only "Location is required" on `location`; its
  label is not examined.

The form library keeps only the first message per key. The page only asks
whether any error exists, so the complete set decides the same thing.

The release-step handler is modelled with the schema as written. When the
event date is absent, validation throws: the handler then stores nothing and
raises no toast. Every other property of the release schema is stated about
the intended report `Validate`. When the event date is present, the two
agree.

The creation store's reducer is not part of this model. Its operations are
methods of `EventCreation` with these assumed effects:

- `ResetCurrentStep` sets the step to 1.
- `PreviousStep` subtracts one.
- `SetTicketReleaseForm` and `SetTicketTypes` store their payload and
  advance one step.
- `ResetSuccess` clears the flag.
- `ResetTicketTypes` empties the ticket-type editor's list.
- `WorkflowSucceeded` stands for the transport reporting success.

## Model

| member | source | states |
|---|---|---|
| Common.RequiredStringErrors | src/validation/create_ticket_release_form.tsx:91-96 | a required string field is refused exactly when empty, with its one required message |
| Common.LengthRuleErrors | src/validation/create_ticket_release_form.tsx:67-74 | a required string with length bounds has no error exactly when lo <= its UTF-16 length <= hi; every error is on that field; an empty string gets only the required message |
| Common.MinimumRuleErrors | src/validation/create_ticket_release_form.tsx:82-90 | a required number with a minimum has no error exactly when present and >= the minimum; absent gives only the required message, too small only the minimum message |
| Types.EnumerationValues | src/types/index.tsx:4-12 | notification methods take exactly the values "email"/"sms" and cancellation policies "full_refund"/"no_refund", distinct members having distinct values |
| Common.Utf16Length | src/validation/create_ticket_release_form.tsx:67-74 | the length the bounds compare is between the number of characters and twice it |
| Common.Utf16LengthInBasicPlane | src/validation/create_ticket_release_form.tsx:67-74 | for text within the Basic Multilingual Plane the JavaScript length is the number of characters |
| Common.Utf16LengthAppend | src/validation/create_ticket_release_form.tsx:67-74 | the JavaScript length of a concatenation is the sum of the lengths of its parts |
| Common.Utf16LengthOfChar | src/validation/create_ticket_release_form.tsx:67-74 | one character is one code unit inside the Basic Multilingual Plane and two outside it |
| Common.Utf16LengthCountsSurrogatePairs | src/validation/create_event_form.tsx:10-13 | "a" followed by one emoji is two characters but three code units long |
| Types.TicketReleaseFormInitialValues | src/types/index.tsx:176-188 | the initial release form; its properties are stated by TicketReleaseValidation.InitialReleaseFormRejected |
| Types.EventFormInitialTestValues | src/types/index.tsx:125-138 | the prefilled event form; its report is stated by EventValidation.TestEventFormOnlyDated |
| Types.TicketTypeFormInitialValues | src/types/index.tsx:208-213 | the default ticket type: no id, name "Default", empty description, price 0, quantity 0 |
| Types.PromoCodeAccessFormInitialValues | src/types/index.tsx:254-256 | the empty promo-code access form; its report is stated by TicketReleaseValidation.EmptyPromoCodeRefused |
| TicketReleaseValidation.PromoPatternIsCharacterClass | src/validation/create_ticket_release_form.tsx:56-59 | the pattern `^[A-Z0-9]*$` matches a string exactly when every character is A-Z or 0-9 |
| TicketReleaseValidation.MatchesPromoPattern | src/validation/create_ticket_release_form.tsx:56-59 | the pattern `^[A-Z0-9]*$` read one character at a time; its meaning is stated by PromoPatternIsCharacterClass |
| TicketReleaseValidation.PromoCodeAcceptable | src/validation/create_ticket_release_form.tsx:102-109 | the independent statement of a valid promo code, tied to the tests by PromoCodeErrors |
| TicketReleaseValidation.PromoPatternLength | src/validation/create_ticket_release_form.tsx:56-61 | a code that matches the pattern has JavaScript length equal to its number of characters |
| TicketReleaseValidation.PromoCodeErrors | src/validation/create_ticket_release_form.tsx:102-109 | the promo-code tests report nothing exactly when the code is present, 5..20 long and over [A-Z0-9]; every error is on `promo_code`; an absent or empty code gets only the required message |
| TicketReleaseValidation.ValidatePromoCodeForm | src/validation/create_ticket_release_form.tsx:53-62 | the standalone promo schema accepts exactly the codes of length 5..20 matching the pattern |
| TicketReleaseValidation.EmptyPromoCodeRefused | src/validation/create_ticket_release_form.tsx:53-62 | the pattern alone accepts "", yet the schema refuses the initial access form's "" with only "Enter a promo code" |
| TicketReleaseValidation.ErrorsAttachedTo | src/validation/create_ticket_release_form.tsx:64-151 | the tests grouped by the key they report on; every error carries that key |
| TicketReleaseValidation.Validate | src/validation/create_ticket_release_form.tsx:64-151 | the complete report; its meaning is stated by ValidateAcceptsExactly and the rule lemmas below |
| TicketReleaseValidation.Acceptable | src/validation/create_ticket_release_form.tsx:64-151 | the independent statement of a storable release, tied to Validate by ValidateAcceptsExactly |
| TicketReleaseValidation.IsInFuture | src/validation/create_ticket_release_form.tsx:4-7 | strictly later than now; stated on the report by FutureRuleIsStrict |
| TicketReleaseValidation.DatesValidWithEventDate | src/validation/create_ticket_release_form.tsx:9-24 | all three dates present and open, close not after the event date; stated on the report by EventDateRule |
| TicketReleaseValidation.OpenAndCloseValid | src/validation/create_ticket_release_form.tsx:26-51 | the open-window test; stated on the report by OpenWindowRule |
| TicketReleaseValidation.OpenErrors | src/validation/create_ticket_release_form.tsx:75-77 | the open field's tests; stated by FutureRuleIsStrict |
| TicketReleaseValidation.CloseErrors | src/validation/create_ticket_release_form.tsx:78-81 | the close field's tests; stated by CloseAfterOpenRule and FutureRuleIsStrict |
| TicketReleaseValidation.OpenWindowErrors | src/validation/create_ticket_release_form.tsx:113-133 | the `is-valid-open-and-close` test, reported on `open_window_duration`; stated by OpenWindowRule |
| TicketReleaseValidation.EventDateErrors | src/validation/create_ticket_release_form.tsx:134-151 | the `is-valid-dates` test, reported on `open`; stated by EventDateRule |
| TicketReleaseValidation.ValidateAcceptsExactly | src/validation/create_ticket_release_form.tsx:64-151 | the schema reports no error exactly when the release is acceptable: all values present and in bounds, open strictly in the future, open + duration·60000 <= close <= event date, and a valid promo code when reserved |
| TicketReleaseValidation.FutureRuleIsStrict | src/validation/create_ticket_release_form.tsx:4-7 | the future messages on open and close appear exactly when that date is present and <= now, so a date equal to now is refused |
| TicketReleaseValidation.CloseAfterOpenRule | src/validation/create_ticket_release_form.tsx:78-81 | "Close must be after open" appears exactly when close is present and open is absent or later than close; equality passes |
| TicketReleaseValidation.EventDateRule | src/validation/create_ticket_release_form.tsx:9-24 | the event-date error on `open` appears exactly when event date, open or close is absent, or open or close is after the event date; equality passes |
| TicketReleaseValidation.OpenWindowRule | src/validation/create_ticket_release_form.tsx:26-51 | the window error on `open_window_duration` appears exactly when a value is absent, the duration is 0, open > close, or open + duration·60000 > close |
| TicketReleaseValidation.OpenEqualsCloseFailsWindow | src/validation/create_ticket_release_form.tsx:35-48 | with a duration >= 1, open == close passes the inclusive close >= open rule but always fails the window rule, so the release is not acceptable |
| TicketReleaseValidation.PromoCodeRule | src/validation/create_ticket_release_form.tsx:97-111 | a non-reserved release has no promo-code error; a reserved one has none exactly when its code is acceptable |
| TicketReleaseValidation.LengthBounds | src/validation/create_ticket_release_form.tsx:67-74 | no name error exactly when its UTF-16 length is 3..80, no description error exactly when 5..500; an empty name gets only "Name is required" |
| TicketReleaseValidation.MinimumOneBounds | src/validation/create_ticket_release_form.tsx:82-90 | release method and per-user maximum error-free exactly when present and >= 1; the per-user maximum's and the duration's required messages appear exactly when the value is absent, and their minimum messages exactly when it is present and below 1; the release method uses one text for both tests, so its message appears exactly when the value is absent or below 1 |
| TicketReleaseValidation.RequiredFields | src/validation/create_ticket_release_form.tsx:91-96 | event date, notification method and cancellation policy are error-free exactly when present |
| TicketReleaseValidation.InitialReleaseFormRejected | src/types/index.tsx:176-188 | the initial release form fails the three minimum-1 rules, the window rule and the event-date requirement, has no promo error, and once its load time has passed fails the future test |
| TicketReleaseValidation.ValidateAsWritten | src/validation/create_ticket_release_form.tsx:134-151 | as written, validation yields the intended report whenever the event date is present |
| TicketReleaseValidation.MissingEventDateThrows | src/validation/create_ticket_release_form.tsx:141-147 | with no event date, validation as written throws, although the intended report holds both the required message and the event-date error |
| TicketReleaseValidation.AsWrittenAcceptsExactly | src/validation/create_ticket_release_form.tsx:134-151 | as written, validation reports no error exactly for acceptable releases, and throws exactly when the event date is absent |
| EventValidation.ErrorsAttachedTo | src/validation/create_event_form.tsx:9-28 | the event tests grouped by the key they report on; every error carries that key |
| EventValidation.Validate | src/validation/create_event_form.tsx:9-28 | the complete report; its meaning is stated by ValidateAcceptsExactly and the rule lemmas below |
| EventValidation.Acceptable | src/validation/create_event_form.tsx:9-28 | the independent statement of a storable event, tied to Validate by ValidateAcceptsExactly |
| EventValidation.IsInFuture | src/validation/create_event_form.tsx:3-7 | strictly later than now; stated on the report by DateRule |
| EventValidation.ValidateAcceptsExactly | src/validation/create_event_form.tsx:9-28 | no error exactly when name is 3..50 and description 5..500 UTF-16 code units, the date is strictly after now, the location is present with a non-empty label, and a team is selected |
| EventValidation.LengthBounds | src/validation/create_event_form.tsx:10-17 | no name error exactly when its UTF-16 length is 3..50, no description error exactly when 5..500; an empty name gets only "Name is required" |
| EventValidation.DateRule | src/validation/create_event_form.tsx:3-20 | no date error exactly when the date is present and strictly after now; "Date is required" appears exactly when it is empty, the future message exactly when it is present and not after now |
| EventValidation.LocationRule | src/validation/create_event_form.tsx:21-25 | a missing location is reported on `location`, an empty label on `location.label` |
| EventValidation.OrganizationRule | src/validation/create_event_form.tsx:26 | the team key has an error exactly when no team is selected, and then only "Team is required" |
| EventValidation.OrganizationAndPrivacyUnconstrained | src/validation/create_event_form.tsx:26-27 | once a team is selected, which team it is and the privacy flag never change the report |
| EventValidation.InitialEventFormRejected | src/types/index.tsx:116-123 | the initial event form is refused with exactly the required messages on name, description, date and location, and nothing on the team |
| EventValidation.OnlyPastDateRefused | src/validation/create_event_form.tsx:9-28 | a form with plain-text name and description of the right lengths, a labelled location and a team, but a date that is not after now, gets exactly the future message |
| EventValidation.TestEventFormOnlyDated | src/types/index.tsx:125-138 | the prefilled test form gets only the future message once its load time has passed |
| CreateEventPage.ActiveViews | src/pages/event/create.tsx:83-140 | step 1 shows exactly the event-details view, 2 the ticket-release view, 3 the ticket-type view and 4 the last step; no view otherwise |
| CreateEventPage.ViewDeterminesStep | src/pages/event/create.tsx:83-140 | no view is shown for two different steps |
| CreateEventPage.NeedsReset | src/pages/event/create.tsx:53 | the range test; stated by StepAfterRangeEffect and StepRangeEffect |
| CreateEventPage.StepAfterRangeEffect | src/pages/event/create.tsx:52-56 | after the range effect the step is in 1..4, unchanged when it already was, and exactly one view is shown |
| CreateEventPage.EventCreation.constructor | src/pages/event/create.tsx:37-39 | a store restored with any step and draft, nothing requested, toasted or navigated |
| CreateEventPage.EventCreation.ResetCurrentStep | src/pages/event/create.tsx:54 | (assumed) the step becomes 1 |
| CreateEventPage.EventCreation.PreviousStep | src/pages/event/create.tsx:134 | (assumed) the step decreases by one, nothing else changes |
| CreateEventPage.EventCreation.SetTicketReleaseForm | src/pages/event/create.tsx:69 | (assumed) the draft's release becomes the payload and the step advances |
| CreateEventPage.EventCreation.SetTicketTypes | src/pages/event/create.tsx:77 | (assumed) the draft's ticket types become the payload and the step advances |
| CreateEventPage.EventCreation.ResetSuccess | src/pages/event/create.tsx:49 | (assumed) the success flag is cleared |
| CreateEventPage.EventCreation.ResetTicketTypes | src/pages/event/create.tsx:45 | (assumed) the ticket-type editor's list becomes empty |
| CreateEventPage.EventCreation.CreateEventFullWorkflowRequest | src/pages/event/create.tsx:59 | the dispatched payload is appended to the requests |
| CreateEventPage.EventCreation.WorkflowSucceeded | src/pages/event/create.tsx:43-44 | (assumed) the transport's success sets the flag the effect reads |
| CreateEventPage.EventCreation.SuccessEffect | src/pages/event/create.tsx:43-50 | on success the ticket types and step are reset and the page leaves for /events; the flag is cleared in every case; the draft is untouched |
| CreateEventPage.EventCreation.StepRangeEffect | src/pages/event/create.tsx:52-56 | a step outside 1..4 becomes 1, steps 1..4 are kept, and afterwards exactly one view is shown |
| CreateEventPage.EventCreation.SubmitEventFullWorkflow | src/pages/event/create.tsx:58-60 | exactly one request carrying the whole draft is added, and its release had no errors when the page stored it |
| CreateEventPage.EventCreation.HandleTicketReleaseSubmit | src/pages/event/create.tsx:62-74 | with no errors reported, the release is stored, the step advances and the stored release is acceptable; with errors reported, the draft and step are unchanged and one error toast is raised; with no event date, validation throws and nothing is stored or toasted; the stored-release invariant is kept |
| CreateEventPage.EventCreation.HandleTicketTypesSubmit | src/pages/event/create.tsx:76-78 | the ticket types are stored unconditionally and the step advances |
| CreateEventPage.EventCreation.HandleBack | src/pages/event/create.tsx:133-135 | one step back, with the draft untouched |

## Left out

- Yup and Formik themselves. The rules are written out directly, and the
  behaviour of the libraries that matters is listed above. The component
  that runs the promo-code schema is not part of this model; it is
  assumed to go through Formik like the other forms. The order in which
  errors are produced, and the rule that only the first message per key is
  displayed, are not modelled.
- Parsing and formatting of dates. Form date strings are read as epoch
  milliseconds, or as absent when empty.
  - A non-empty date string that does not parse is not modelled.
  - The initial forms' dates are the module-load time, not truncated to the
    minute.
  - The event-date message is modelled without the formatted date that
    follows its fixed text.
- Numbers are integers. Fractional minutes, NaN and floating-point rounding
  of `duration * 60 * 1000` are not modelled.
- The creation store's reducer, the saga behind the full-workflow request,
  and the network. Their effects are the assumptions listed above. The
  conversion from the draft to `CompleteEventWorkflowPostReq` is done
  there, so the model gives only the request's shape.
- The step-1 event form component, which would run the event schema and
  store the event, is not part of this model. The event schema is modelled
  on its own.
- The restart button and the ticket-type editor are not part of this model.
- Rendering, routing and toasts. Navigation and toasts are recorded as
  sequences of route and message strings.
- A place's coordinates are left out. Only the label is validated.
- The default `notification_method` is "EMAIL" and the default
  `cancellation_policy` is "FULL_REFUND". Neither is an enumeration value.
  Nothing in the source checks them against the enumerations, so the model
  does not either.
- Ticket, ticket request and the other entity types in the types file are
  read-only display data with no logic here.

## Findings

| source | as written | input that shows it | evidently intended | confidence | as-written member | corrected member |
|---|---|---|---|---|---|---|
| src/validation/create_ticket_release_form.tsx:141-147 | the event-date rule builds its message with `format(value.event_date, …)`. When the event date is absent, date-fns throws `RangeError` on the invalid date. The schema library treats the throw as a failure of the whole validation, so the page's handler rejects. It stores nothing and shows neither toast nor field messages. | the initial release form, which has no `event_date` | report "Event Date is required" and the event-date error on `open` | medium: depends on date-fns throwing on an invalid date and on the library propagating a thrown test; not executed | TicketReleaseValidation.ValidateAsWritten, TicketReleaseValidation.MissingEventDateThrows | TicketReleaseValidation.Validate, with TicketReleaseValidation.EventDateRule and TicketReleaseValidation.RequiredFields |

=== FILE: common.dfy ===
/**
 * Shared vocabulary of the two form validators: optional values, the
 * `(field, message)` entries of an error report, and the few Yup rule
 * shapes (required string with length bounds, required number with a
 * minimum) that both schemas are built from.
 */
module Common {

  datatype Option<+T> = None | Some(value: T)

  /** One entry of a validation report: the form field it is attached to
      and the message the form shows there. */
  datatype FieldError<F> = FieldError(field: F, message: string)

  /** A `Yup.string().required(msg)`: the empty string, which the form
      library passes on as undefined, is refused. */
  function RequiredStringErrors<F(==)>(field: F, s: string, requiredMessage: string): (errs: set<FieldError<F>>)
    ensures errs == {} <==> |s| > 0
    ensures errs != {} ==> errs == {FieldError(field, requiredMessage)}
  {
    if |s| == 0 then {FieldError(field, requiredMessage)} else {}
  }

  /** A character outside the Basic Multilingual Plane takes two UTF-16
      code units (a surrogate pair); every other character takes one. */
  predicate InBasicPlane(c: char) {
    c as int <= 0xFFFF
  }

  /** The length JavaScript reports for a string: its number of UTF-16
      code units, which is what Yup's `min` and `max` compare. */
  function Utf16Length(s: string): (n: nat)
    ensures |s| <= n <= 2 * |s|
  {
    if |s| == 0 then 0
    else (if InBasicPlane(s[0]) then 1 else 2) + Utf16Length(s[1..])
  }

  /** For text within the Basic Multilingual Plane (all of ASCII among
      it) the JavaScript length is the number of characters. */
  lemma {:induction false} Utf16LengthInBasicPlane(s: string)
    requires forall i :: 0 <= i < |s| ==> InBasicPlane(s[i])
    ensures Utf16Length(s) == |s|
  {
    if |s| > 0 {
      assert forall i :: 0 <= i < |s[1..]| ==> s[1..][i] == s[i + 1];
      Utf16LengthInBasicPlane(s[1..]);
    }
  }

  /** The JavaScript length of a concatenation is the sum of the lengths:
      each character contributes its own code units, one inside the Basic
      Multilingual Plane and two outside it. */
  lemma {:induction false} Utf16LengthAppend(s: string, t: string)
    ensures Utf16Length(s + t) == Utf16Length(s) + Utf16Length(t)
  {
    if |s| == 0 {
      assert s + t == t;
    } else {
      assert (s + t)[0] == s[0];
      assert (s + t)[1..] == s[1..] + t;
      Utf16LengthAppend(s[1..], t);
    }
  }

  /** A single character is one code unit inside the Basic Multilingual
      Plane and two outside it. */
  lemma Utf16LengthOfChar(c: char)
    ensures Utf16Length([c]) == if InBasicPlane(c) then 1 else 2
  {
    assert [c][1..] == [];
  }

  /** One emoji after a letter is three code units long, not two. */
  lemma Utf16LengthCountsSurrogatePairs()
    ensures |"a\U{1F389}"| == 2 && Utf16Length("a\U{1F389}") == 3
  {
    var s := "a\U{1F389}";
    assert s[1..][1..] == "";
  }

  /** A `Yup.string().required(msg).min(lo, "Too short").max(hi, "Too long")`
      run on the value the form library passes on, which turns "" into
      undefined: an empty string gets only the required message, and the
      length tests compare the UTF-16 length. */
  function LengthRuleErrors<F(==)>(field: F, s: string, requiredMessage: string, lo: nat, hi: nat): (errs: set<FieldError<F>>)
    requires 1 <= lo
    ensures errs == {} <==> lo <= Utf16Length(s) <= hi
    ensures forall e :: e in errs ==> e.field == field
    ensures |s| == 0 ==> errs == {FieldError(field, requiredMessage)}
  {
    if |s| == 0 then {FieldError(field, requiredMessage)}
    else
      var n := Utf16Length(s);
      (if n < lo then {FieldError(field, "Too short")} else {})
      + (if n > hi then {FieldError(field, "Too long")} else {})
  }

  /** The entries of a report that are attached to `field`. */
  function ErrorsOn<F(==)>(errs: set<FieldError<F>>, field: F): set<FieldError<F>> {
    set e | e in errs && e.field == field
  }

  /** A `Yup.number().required(msg).min(lo, minMessage)`. An absent value
      fails only the required test: the minimum is skipped for it. */
  function MinimumRuleErrors<F(==)>(field: F, v: Option<int>, requiredMessage: string, lo: int, minMessage: string)
    : (errs: set<FieldError<F>>)
    ensures errs == {} <==> v.Some? && v.value >= lo
    ensures v.None? ==> errs == {FieldError(field, requiredMessage)}
    ensures v.Some? && v.value < lo ==> errs == {FieldError(field, minMessage)}
  {
    match v
    case None => {FieldError(field, requiredMessage)}
    case Some(x) => if x < lo then {FieldError(field, minMessage)} else {}
  }
}

=== FILE: create_event_page.dfy ===
/**
 * The event-creation wizard page: which step view is shown, the effect
 * that repairs an out-of-range step, the effect that leaves the page after
 * a successful submission, and the handlers that store the ticket release
 * (only when it validates) and the ticket types, and that submit the whole
 * draft as one request.
 *
 * The state lives in the creation store, whose reducer is not part of this
 * model. Its operations are methods of `EventCreation` with ASSUMED
 * effects: `ResetCurrentStep` sets the step to 1, `PreviousStep` subtracts
 * one, `SetTicketReleaseForm` and `SetTicketTypes` store their payload in
 * the draft and advance one step, `ResetSuccess` clears the success flag,
 * `ResetTicketTypes` empties the ticket-type editor's list, and
 * `WorkflowSucceeded` is the transport reporting success.
 */
module CreateEventPage {
  import opened Common
  import Types
  import TicketReleaseValidation

  const FirstStep: int := 1
  const LastStep: int := 4

  /** The views the page can show, one per step. */
  datatype StepView = EventDetailsView | TicketReleasesView | TicketTypesView | LastStepView

  /** The page renders each view under its own test on the step, so the
      set of views on screen is the set whose test holds. */
  function ActiveViews(step: int): (views: set<StepView>)
    ensures FirstStep <= step <= LastStep ==> |views| == 1
    ensures step < FirstStep || step > LastStep ==> views == {}
    ensures EventDetailsView in views <==> step == 1
    ensures TicketReleasesView in views <==> step == 2
    ensures TicketTypesView in views <==> step == 3
    ensures LastStepView in views <==> step == 4
  {
    (if step == 1 then {EventDetailsView} else {})
    + (if step == 2 then {TicketReleasesView} else {})
    + (if step == 3 then {TicketTypesView} else {})
    + (if step == 4 then {LastStepView} else {})
  }

  /** No view is shown for two different steps. */
  lemma ViewDeterminesStep(s: int, t: int, v: StepView)
    requires v in ActiveViews(s) && v in ActiveViews(t)
    ensures s == t
  {
  }

  /** The range effect dispatches a reset for any step outside 1..4. */
  predicate NeedsReset(step: int) {
    step < FirstStep || step > LastStep
  }

  /** The step after the range effect, with reset assumed to go to step 1. */
  function StepAfterRangeEffect(step: int): (r: int)
    ensures FirstStep <= r <= LastStep
    ensures !NeedsReset(step) ==> r == step
    ensures |ActiveViews(r)| == 1
  {
    if NeedsReset(step) then FirstStep else step
  }

  /** The draft accumulated in the creation store's `form`. */
  datatype Draft = Draft(
    event: Types.EventForm,
    ticketRelease: Types.TicketReleaseForm,
    ticketTypes: seq<Types.TicketTypeForm>)

  const FixErrorsToast: string := "Please fix the errors in the form."
  const EventsRoute: string := "/events"

  class EventCreation {
    /** The creation store's `currentStep`, `form` and `success`. */
    var currentStep: int
    var form: Draft
    var success: bool
    /** The ticket-type editor's list, held in a separate store. */
    var ticketTypeEntries: seq<Types.TicketTypeForm>
    /** Payloads handed to the full-workflow request, oldest first. */
    var requests: seq<Draft>
    /** Error toasts raised, oldest first. */
    var errorToasts: seq<string>
    /** Routes navigated to, oldest first. */
    var navigations: seq<string>
    /** The validation time at which the page last stored a release. */
    ghost var releaseCheckedAt: Option<int>

    /** A release the page stored had no errors when it was stored. */
    ghost predicate Valid()
      reads this`form, this`releaseCheckedAt
    {
      releaseCheckedAt.Some? ==>
        TicketReleaseValidation.Validate(form.ticketRelease, releaseCheckedAt.value) == {}
    }

    /** A store restored with step `step` (possibly out of range) and draft `draft`. */
    constructor (step: int, draft: Draft)
      ensures Valid()
      ensures currentStep == step && form == draft && !success
      ensures ticketTypeEntries == [] && requests == [] && errorToasts == [] && navigations == []
      ensures releaseCheckedAt == None
    {
      currentStep := step;
      form := draft;
      success := false;
      ticketTypeEntries := [];
      requests := [];
      errorToasts := [];
      navigations := [];
      releaseCheckedAt := None;
    }

    // ------------------------------------------------------------------
    // Store operations (assumed effects)

    method ResetCurrentStep()
      modifies this`currentStep
      ensures currentStep == FirstStep
    {
      currentStep := FirstStep;
    }

    method PreviousStep()
      modifies this`currentStep
      ensures currentStep == old(currentStep) - 1
    {
      currentStep := currentStep - 1;
    }

    method SetTicketReleaseForm(values: Types.TicketReleaseForm)
      modifies this`form, this`currentStep
      ensures form == old(form).(ticketRelease := values)
      ensures currentStep == old(currentStep) + 1
    {
      form := form.(ticketRelease := values);
      currentStep := currentStep + 1;
    }

    method SetTicketTypes(types: seq<Types.TicketTypeForm>)
      modifies this`form, this`currentStep
      ensures form == old(form).(ticketTypes := types)
      ensures currentStep == old(currentStep) + 1
    {
      form := form.(ticketTypes := types);
      currentStep := currentStep + 1;
    }

    method ResetSuccess()
      modifies this`success
      ensures !success
    {
      success := false;
    }

    method ResetTicketTypes()
      modifies this`ticketTypeEntries
      ensures ticketTypeEntries == []
    {
      ticketTypeEntries := [];
    }

    method CreateEventFullWorkflowRequest(draft: Draft)
      modifies this`requests
      ensures requests == old(requests) + [draft]
    {
      requests := requests + [draft];
    }

    method WorkflowSucceeded()
      modifies this`success
      ensures success
    {
      success := true;
    }

    // ------------------------------------------------------------------
    // The page

    /** On success: empty the ticket-type list, reset the step and leave
        for the events list. The success flag is cleared in every case. */
    method SuccessEffect()
      requires Valid()
      modifies this`ticketTypeEntries, this`currentStep, this`navigations, this`success
      ensures Valid()
      ensures !success
      ensures ticketTypeEntries == if old(success) then [] else old(ticketTypeEntries)
      ensures currentStep == if old(success) then FirstStep else old(currentStep)
      ensures navigations == if old(success) then old(navigations) + [EventsRoute] else old(navigations)
    {
      if success {
        ResetTicketTypes();
        ResetCurrentStep();
        navigations := navigations + [EventsRoute];
      }
      ResetSuccess();
      assert form == old(form) && releaseCheckedAt == old(releaseCheckedAt);
    }

    /** A step outside 1..4 is reset; steps 1..4 are left alone. Afterwards
        exactly one step view is shown. */
    method StepRangeEffect()
      requires Valid()
      modifies this`currentStep
      ensures Valid()
      ensures currentStep == StepAfterRangeEffect(old(currentStep))
      ensures NeedsReset(old(currentStep)) ==> currentStep == FirstStep
      ensures |ActiveViews(currentStep)| == 1
    {
      if currentStep < FirstStep || currentStep > LastStep {
        ResetCurrentStep();
      }
    }

    /** Step 4: one request carrying the whole draft, whose release (when
        the page stored one) had no errors when it was stored. */
    method SubmitEventFullWorkflow()
      requires Valid()
      modifies this`requests
      ensures Valid()
      ensures requests == old(requests) + [form]
      ensures releaseCheckedAt.Some? ==>
        TicketReleaseValidation.Validate(requests[|requests| - 1].ticketRelease, releaseCheckedAt.value) == {}
    {
      CreateEventFullWorkflowRequest(form);
    }

    /** Step 2, with the schema as written: the release is stored (and the
        wizard advances) only when validation at time `now` reports no
        error; when it reports errors, nothing is stored and an error toast
        is raised. When validation throws (a release without an event
        date), the awaited validation rejects and the handler stops before
        either branch: nothing is stored and no toast is raised. */
    method HandleTicketReleaseSubmit(values: Types.TicketReleaseForm, now: int)
      requires Valid()
      modifies this`form, this`currentStep, this`errorToasts, this`releaseCheckedAt
      ensures Valid()
      ensures TicketReleaseValidation.ValidateAsWritten(values, now) == TicketReleaseValidation.Reported({}) ==>
        && form == old(form).(ticketRelease := values)
        && currentStep == old(currentStep) + 1
        && errorToasts == old(errorToasts)
        && TicketReleaseValidation.Acceptable(form.ticketRelease, now)
      ensures var outcome := TicketReleaseValidation.ValidateAsWritten(values, now);
        outcome.Reported? && outcome.errors != {} ==>
        && form == old(form)
        && currentStep == old(currentStep)
        && errorToasts == old(errorToasts) + [FixErrorsToast]
        && releaseCheckedAt == old(releaseCheckedAt)
      ensures values.event_date.None? ==>
        && TicketReleaseValidation.ValidateAsWritten(values, now) == TicketReleaseValidation.Threw
        && form == old(form)
        && currentStep == old(currentStep)
        && errorToasts == old(errorToasts)
        && releaseCheckedAt == old(releaseCheckedAt)
    {
      TicketReleaseValidation.AsWrittenAcceptsExactly(values, now);
      var outcome := TicketReleaseValidation.ValidateAsWritten(values, now);
      if outcome.Reported? {
        if outcome.errors == {} {
          SetTicketReleaseForm(values);
          releaseCheckedAt := Some(now);
        } else {
          errorToasts := errorToasts + [FixErrorsToast];
        }
      }
    }

    /** Step 3: the ticket types are stored unconditionally. */
    method HandleTicketTypesSubmit(types: seq<Types.TicketTypeForm>)
      requires Valid()
      modifies this`form, this`currentStep
      ensures Valid()
      ensures form == old(form).(ticketTypes := types)
      ensures currentStep == old(currentStep) + 1
    {
      SetTicketTypes(types);
    }

    /** Step 3's back button: one step back, the draft untouched. */
    method HandleBack()
      requires Valid()
      modifies this`currentStep
      ensures Valid()
      ensures currentStep == old(currentStep) - 1
    {
      PreviousStep();
    }
  }
}

=== FILE: event_validation.dfy ===
/**
 * The event-details form schema used by step 1 of the creation wizard.
 * `Validate(form, now)` is the complete report with every test evaluated;
 * `now` is the validation time in epoch milliseconds.
 */
module EventValidation {
  import opened Common
  import Types

  /** The form keys an error can be attached to. `LocationLabel` is the
      nested key `location.label`. */
  datatype Field = Name | Description | Date | Location | LocationLabel | OrganizationId

  type Error = FieldError<Field>

  const DateFutureMessage: string := "Date must be in the future"

  /** checkDateInFuture on the form's date string: strictly later than
      the validation time. */
  predicate IsInFuture(date: int, now: int) {
    date > now
  }

  /** The errors the schema attaches to one key. The form library passes an
      empty date on as undefined, so it fails only its required test; the
      future test runs on a present date. A null location fails only its
      own required test: the nested label is not examined. */
  function ErrorsAttachedTo(f: Types.EventForm, now: int, field: Field): (errs: set<Error>)
    ensures forall e :: e in errs ==> e.field == field
  {
    match field
    case Name => LengthRuleErrors(Name, f.name, "Name is required", 3, 50)
    case Description => LengthRuleErrors(Description, f.description, "Description is required", 5, 500)
    case Date =>
      (match f.date
       case None => {FieldError(Date, "Date is required")}
       case Some(d) => if IsInFuture(d, now) then {} else {FieldError(Date, DateFutureMessage)})
    case Location =>
      if f.location.None? then {FieldError(Location, "Location is required")} else {}
    case LocationLabel =>
      if f.location.Some? then
        RequiredStringErrors(LocationLabel, f.location.value.labelText, "Location is required")
      else {}
    case OrganizationId =>
      if f.organization_id.None? then {FieldError(OrganizationId, "Team is required")} else {}
  }

  /** CreateEventFormSchema: every error the form has at time `now`. */
  function Validate(f: Types.EventForm, now: int): set<Error> {
    ErrorsAttachedTo(f, now, Name)
    + ErrorsAttachedTo(f, now, Description)
    + ErrorsAttachedTo(f, now, Date)
    + ErrorsAttachedTo(f, now, Location)
    + ErrorsAttachedTo(f, now, LocationLabel)
    + ErrorsAttachedTo(f, now, OrganizationId)
  }

  /** An error is in the report exactly when its own key's tests produce it. */
  lemma InReport(f: Types.EventForm, now: int, e: Error)
    ensures e in Validate(f, now) <==> e in ErrorsAttachedTo(f, now, e.field)
  {
  }

  lemma ReportOnField(f: Types.EventForm, now: int, field: Field)
    ensures ErrorsOn(Validate(f, now), field) == ErrorsAttachedTo(f, now, field)
  {
    var v := Validate(f, now);
    forall e ensures e in ErrorsOn(v, field) <==> e in ErrorsAttachedTo(f, now, field) {
      InReport(f, now, e);
    }
  }

  /** When an event may be stored: name 3..50 and description 5..500
      UTF-16 code units, a date strictly after `now`, a location with a
      non-empty label, and a team. */
  predicate Acceptable(f: Types.EventForm, now: int) {
    && 3 <= Utf16Length(f.name) <= 50
    && 5 <= Utf16Length(f.description) <= 500
    && f.date.Some? && f.date.value > now
    && f.location.Some? && |f.location.value.labelText| > 0
    && f.organization_id.Some?
  }

  /** The schema reports no error exactly when the event is acceptable. */
  lemma ValidateAcceptsExactly(f: Types.EventForm, now: int)
    ensures Validate(f, now) == {} <==> Acceptable(f, now)
  {
    if Validate(f, now) == {} {
      assert ErrorsAttachedTo(f, now, Date) == {};
      assert ErrorsAttachedTo(f, now, OrganizationId) == {};
      assert ErrorsAttachedTo(f, now, Location) == {};
      assert ErrorsAttachedTo(f, now, LocationLabel) == {};
    }
  }

  /** Name 3..50 and description 5..500 UTF-16 code units; an empty one
      is reported only as missing. */
  lemma LengthBounds(f: Types.EventForm, now: int)
    ensures ErrorsOn(Validate(f, now), Name) == {} <==> 3 <= Utf16Length(f.name) <= 50
    ensures ErrorsOn(Validate(f, now), Description) == {} <==> 5 <= Utf16Length(f.description) <= 500
    ensures f.name == "" ==> ErrorsOn(Validate(f, now), Name) == {FieldError(Name, "Name is required")}
  {
    ReportOnField(f, now, Name);
    ReportOnField(f, now, Description);
  }

  /** The date is required and must be strictly after `now`: a date equal
      to `now` is refused, and an empty one is reported only as missing. */
  lemma DateRule(f: Types.EventForm, now: int)
    ensures ErrorsOn(Validate(f, now), Date) == {} <==> f.date.Some? && f.date.value > now
    ensures FieldError(Date, DateFutureMessage) in Validate(f, now) <==> f.date.Some? && f.date.value <= now
    ensures FieldError(Date, "Date is required") in Validate(f, now) <==> f.date.None?
  {
    ReportOnField(f, now, Date);
    InReport(f, now, FieldError(Date, DateFutureMessage));
    InReport(f, now, FieldError(Date, "Date is required"));
  }

  /** The location must be an object with a non-empty label; a missing
      location is reported on `location`, an empty label on `location.label`. */
  lemma LocationRule(f: Types.EventForm, now: int)
    ensures ErrorsOn(Validate(f, now), Location) == {} <==> f.location.Some?
    ensures ErrorsOn(Validate(f, now), LocationLabel) == {} <==>
      f.location.None? || |f.location.value.labelText| > 0
  {
    ReportOnField(f, now, Location);
    ReportOnField(f, now, LocationLabel);
  }

  /** The team is required: its key has an error exactly when no team is
      selected, and then only "Team is required". */
  lemma OrganizationRule(f: Types.EventForm, now: int)
    ensures ErrorsOn(Validate(f, now), OrganizationId) == {} <==> f.organization_id.Some?
    ensures f.organization_id.None? ==>
      ErrorsOn(Validate(f, now), OrganizationId) == {FieldError(OrganizationId, "Team is required")}
  {
    ReportOnField(f, now, OrganizationId);
  }

  /** Once a team is selected, which team it is never affects the report,
      and neither does the privacy flag. */
  lemma OrganizationAndPrivacyUnconstrained(f: Types.EventForm, now: int, organization: int, isPrivate: bool)
    requires f.organization_id.Some?
    ensures Validate(f.(organization_id := Some(organization), is_private := isPrivate), now) == Validate(f, now)
  {
  }

  /** The initial event form is refused on every key except the team, each
      empty value only as missing. */
  lemma InitialEventFormRejected(now: int)
    ensures Validate(Types.EventFormInitialValues, now) ==
      {FieldError(Name, "Name is required"), FieldError(Description, "Description is required"),
       FieldError(Date, "Date is required"), FieldError(Location, "Location is required")}
  {
    var f := Types.EventFormInitialValues;
    assert ErrorsAttachedTo(f, now, Name) == {FieldError(Name, "Name is required")};
    assert ErrorsAttachedTo(f, now, Description) == {FieldError(Description, "Description is required")};
  }

  /** A form whose every other value is in order (plain text of the right
      lengths, a labelled location, a team) but whose date has passed is
      refused only for the date. */
  lemma OnlyPastDateRefused(f: Types.EventForm, now: int)
    requires 3 <= |f.name| <= 50 && 5 <= |f.description| <= 500
    requires forall i :: 0 <= i < |f.name| ==> InBasicPlane(f.name[i])
    requires forall i :: 0 <= i < |f.description| ==> InBasicPlane(f.description[i])
    requires f.location.Some? && |f.location.value.labelText| > 0 && f.organization_id.Some?
    requires f.date.Some? && f.date.value <= now
    ensures Validate(f, now) == {FieldError(Date, DateFutureMessage)}
  {
    Utf16LengthInBasicPlane(f.name);
    Utf16LengthInBasicPlane(f.description);
    assert ErrorsAttachedTo(f, now, Name) == {};
    assert ErrorsAttachedTo(f, now, Description) == {};
  }

  /** The prefilled test form fails only the future test once its load
      time has passed. */
  lemma TestEventFormOnlyDated(loadTime: int, now: int)
    requires loadTime <= now
    ensures Validate(Types.EventFormInitialTestValues(loadTime), now) == {FieldError(Date, DateFutureMessage)}
  {
    OnlyPastDateRefused(Types.EventFormInitialTestValues(loadTime), now);
  }
}

=== FILE: ticket_release_validation.dfy ===
/**
 * The ticket-release form schema: per-field rules, the two whole-record
 * rules (open window, dates against the event date), the promo-code rule
 * that applies to reserved releases, and the standalone promo-code schema.
 *
 * `Validate(form, now)` is the complete report the schema produces with
 * every rule evaluated (no early abort) on the values the form library
 * passes on, in which "" has become undefined; `now` is the validation
 * time in epoch milliseconds. `Acceptable` is an independent statement of when a
 * release may be stored, and `ValidateAcceptsExactly` ties the two.
 */
module TicketReleaseValidation {
  import opened Common
  import Types

  /** The form keys an error can be attached to. */
  datatype Field =
    | EventDate | Name | Description | Open | Close | TicketReleaseMethodId
    | OpenWindowDuration | MaxTicketsPerUser | NotificationMethod
    | CancellationPolicy | PromoCode

  type Error = FieldError<Field>

  /** The open-window duration is given in minutes. */
  const MillisPerMinute: int := 60 * 1000

  const OpenWindowMessage: string :=
    "This duration is not valid with the current open and close times, try changing the duration or the open and close times"

  /** The source appends the event date formatted as "yyyy-MM-dd HH:mm". */
  const EventDateMessage: string :=
    "The open and close times must be before the event date: "

  const OpenFutureMessage: string := "Needs to be in the future"
  const CloseFutureMessage: string := "Close must be in the future"
  const CloseAfterOpenMessage: string := "Close must be after open"

  /** checkDateInFuture: strictly later than the validation time. */
  predicate IsInFuture(timestamp: int, now: int) {
    timestamp > now
  }

  /** checkDatesAreValidWithEventDate: every date present, and neither
      open nor close later than the event date. */
  predicate DatesValidWithEventDate(eventDate: Option<int>, open: Option<int>, close: Option<int>) {
    if eventDate.None? || open.None? || close.None? then false
    else if open.value > eventDate.value || close.value > eventDate.value then false
    else true
  }

  /** validateOpenAndClose. The order test comes first; a zero duration is
      falsy and so counts as absent; the window may end exactly at close. */
  predicate OpenAndCloseValid(open: Option<int>, close: Option<int>, openWindowDuration: Option<int>) {
    if open.Some? && close.Some? && open.value > close.value then false
    else if open.None? || close.None? || openWindowDuration.None? || openWindowDuration.value == 0 then false
    else open.value + openWindowDuration.value * MillisPerMinute <= close.value
  }

  // ---------------------------------------------------------------------
  // Promo codes

  /** One character of the pattern `[A-Z0-9]`. */
  predicate IsPromoChar(c: char) {
    'A' <= c <= 'Z' || '0' <= c <= '9'
  }

  /** The regular expression `^[A-Z0-9]*$`, matched one character at a time. */
  predicate MatchesPromoPattern(s: string) {
    |s| == 0 || (IsPromoChar(s[0]) && MatchesPromoPattern(s[1..]))
  }

  lemma {:induction false} PromoPatternIsCharacterClass(s: string)
    ensures MatchesPromoPattern(s) <==> forall i :: 0 <= i < |s| ==> IsPromoChar(s[i])
  {
    if |s| > 0 {
      PromoPatternIsCharacterClass(s[1..]);
      assert forall i :: 1 <= i < |s| ==> s[i] == s[1..][i - 1];
    }
  }

  /** A code that matches the pattern is ASCII, so its JavaScript length
      is its number of characters. */
  lemma PromoPatternLength(s: string)
    ensures MatchesPromoPattern(s) ==> Utf16Length(s) == |s|
  {
    PromoPatternIsCharacterClass(s);
    if MatchesPromoPattern(s) {
      Utf16LengthInBasicPlane(s);
    }
  }

  /** What a promo code must be: present, 5 to 20 characters, all from `[A-Z0-9]`. */
  predicate PromoCodeAcceptable(code: Option<string>) {
    code.Some? && 5 <= |code.value| <= 20
    && forall i :: 0 <= i < |code.value| ==> IsPromoChar(code.value[i])
  }

  /** The promo-code rules (required, pattern, min 5, max 20). An absent
      or empty code fails only the required test; the length tests compare
      the UTF-16 length. */
  function PromoCodeErrors(code: Option<string>, requiredMessage: string): (errs: set<Error>)
    ensures errs == {} <==> PromoCodeAcceptable(code)
    ensures forall e :: e in errs ==> e.field == PromoCode
    ensures code.None? || code.value == "" ==> errs == {FieldError(PromoCode, requiredMessage)}
  {
    if code.None? || |code.value| == 0 then {FieldError(PromoCode, requiredMessage)}
    else
      var s := code.value;
      PromoPatternIsCharacterClass(s);
      PromoPatternLength(s);
      (if MatchesPromoPattern(s) then {}
       else {FieldError(PromoCode, "Promo Code must only consist of capital letters and numbers")})
      + (if Utf16Length(s) < 5 then {FieldError(PromoCode, "Promo Code must be at least 5 characters")} else {})
      + (if Utf16Length(s) > 20 then {FieldError(PromoCode, "Promo Code must be at most 20 characters")} else {})
  }

  /** PromoCodeValidationSchema applied to a promo-code access form. */
  function ValidatePromoCodeForm(form: Types.PromoCodeAccessForm): (errs: set<Error>)
    ensures errs == {} <==>
      5 <= |form.promo_code| <= 20 && MatchesPromoPattern(form.promo_code)
  {
    PromoPatternIsCharacterClass(form.promo_code);
    PromoCodeErrors(Some(form.promo_code), "Enter a promo code")
  }

  /** The pattern alone accepts the empty code; the schema refuses it as
      missing, so the initial access form is refused. */
  lemma EmptyPromoCodeRefused()
    ensures MatchesPromoPattern("")
    ensures ValidatePromoCodeForm(Types.PromoCodeAccessFormInitialValues) ==
      {FieldError(PromoCode, "Enter a promo code")}
  {
  }

  // ---------------------------------------------------------------------
  // Field rules

  function OpenErrors(open: Option<int>, now: int): set<Error> {
    match open
    case None => {FieldError(Open, "Open is required")}
    case Some(t) => if IsInFuture(t, now) then {} else {FieldError(Open, OpenFutureMessage)}
  }

  /** `min(ref("open"))` compares against whatever open is; an absent open
      makes the comparison false. */
  function CloseErrors(open: Option<int>, close: Option<int>, now: int): set<Error> {
    match close
    case None => {FieldError(Close, "Close is required")}
    case Some(c) =>
      (if open.None? || c < open.value then {FieldError(Close, CloseAfterOpenMessage)} else {})
      + (if IsInFuture(c, now) then {} else {FieldError(Close, CloseFutureMessage)})
  }

  /** The whole-record test `is-valid-open-and-close`, reported on `open_window_duration`. */
  function OpenWindowErrors(f: Types.TicketReleaseForm): set<Error> {
    if OpenAndCloseValid(f.open, f.close, f.open_window_duration) then {}
    else {FieldError(OpenWindowDuration, OpenWindowMessage)}
  }

  /** The whole-record test `is-valid-dates`, reported on `open`. */
  function EventDateErrors(f: Types.TicketReleaseForm): set<Error> {
    if DatesValidWithEventDate(f.event_date, f.open, f.close) then {}
    else {FieldError(Open, EventDateMessage)}
  }

  /** The errors the schema attaches to one key: that field's own tests,
      plus the whole-record test that reports on it. */
  function ErrorsAttachedTo(f: Types.TicketReleaseForm, now: int, field: Field): (errs: set<Error>)
    ensures forall e :: e in errs ==> e.field == field
  {
    match field
    case EventDate =>
      if f.event_date.None? then {FieldError(EventDate, "Event Date is required")} else {}
    case Name => LengthRuleErrors(Name, f.name, "Name is required", 3, 80)
    case Description => LengthRuleErrors(Description, f.description, "Description is required", 5, 500)
    case Open => OpenErrors(f.open, now) + EventDateErrors(f)
    case Close => CloseErrors(f.open, f.close, now)
    case TicketReleaseMethodId =>
      MinimumRuleErrors(TicketReleaseMethodId, f.ticket_release_method_id,
        "Ticket Release Method ID is required", 1, "Ticket Release Method ID is required")
    case OpenWindowDuration =>
      MinimumRuleErrors(OpenWindowDuration, f.open_window_duration,
        "Open Window Duration is required", 1, "Open Window Duration must be greater than or equal to 1")
      + OpenWindowErrors(f)
    case MaxTicketsPerUser =>
      MinimumRuleErrors(MaxTicketsPerUser, f.max_tickets_per_user,
        "Max Tickets Per User is required", 1, "Max Tickets Per User must be greater than or equal to 1")
    case NotificationMethod =>
      RequiredStringErrors(NotificationMethod, f.notification_method, "Notification Method is required")
    case CancellationPolicy =>
      RequiredStringErrors(CancellationPolicy, f.cancellation_policy, "Cancellation Policy is required")
    case PromoCode =>
      if f.is_reserved then PromoCodeErrors(f.promo_code, "Promo Code is required") else {}
  }

  /** CreateTicketReleaseFormSchema: every error the form has at time `now`,
      all tests evaluated. */
  function Validate(f: Types.TicketReleaseForm, now: int): set<Error> {
    ErrorsAttachedTo(f, now, EventDate)
    + ErrorsAttachedTo(f, now, Name)
    + ErrorsAttachedTo(f, now, Description)
    + ErrorsAttachedTo(f, now, Open)
    + ErrorsAttachedTo(f, now, Close)
    + ErrorsAttachedTo(f, now, TicketReleaseMethodId)
    + ErrorsAttachedTo(f, now, OpenWindowDuration)
    + ErrorsAttachedTo(f, now, MaxTicketsPerUser)
    + ErrorsAttachedTo(f, now, NotificationMethod)
    + ErrorsAttachedTo(f, now, CancellationPolicy)
    + ErrorsAttachedTo(f, now, PromoCode)
  }

  /** An error is in the report exactly when its own key's tests produce it. */
  lemma InReport(f: Types.TicketReleaseForm, now: int, e: Error)
    ensures e in Validate(f, now) <==> e in ErrorsAttachedTo(f, now, e.field)
  {
  }

  /** The entries the report holds for one key are that key's tests' errors. */
  lemma ReportOnField(f: Types.TicketReleaseForm, now: int, field: Field)
    ensures ErrorsOn(Validate(f, now), field) == ErrorsAttachedTo(f, now, field)
  {
    var v := Validate(f, now);
    forall e ensures e in ErrorsOn(v, field) <==> e in ErrorsAttachedTo(f, now, field) {
      InReport(f, now, e);
    }
  }

  // ---------------------------------------------------------------------
  // What the schema accepts

  /** When a release may be stored: all its values present and in bounds,
      opening strictly in the future, the open window of at least one
      minute fitting before close, close no later than the event, and a
      valid promo code on a reserved release. */
  predicate Acceptable(f: Types.TicketReleaseForm, now: int) {
    && f.event_date.Some? && f.open.Some? && f.close.Some? && f.open_window_duration.Some?
    && f.ticket_release_method_id.Some? && f.max_tickets_per_user.Some?
    && 3 <= Utf16Length(f.name) <= 80
    && 5 <= Utf16Length(f.description) <= 500
    && f.ticket_release_method_id.value >= 1
    && f.open_window_duration.value >= 1
    && f.max_tickets_per_user.value >= 1
    && |f.notification_method| > 0
    && |f.cancellation_policy| > 0
    && now < f.open.value
    && f.open.value + f.open_window_duration.value * MillisPerMinute <= f.close.value
    && f.close.value <= f.event_date.value
    && (f.is_reserved ==> PromoCodeAcceptable(f.promo_code))
  }

  /** The schema reports no error exactly when the release is acceptable. */
  lemma ValidateAcceptsExactly(f: Types.TicketReleaseForm, now: int)
    ensures Validate(f, now) == {} <==> Acceptable(f, now)
  {
    if Validate(f, now) == {} {
      assert ErrorsAttachedTo(f, now, Open) == {};
      assert ErrorsAttachedTo(f, now, Close) == {};
      assert ErrorsAttachedTo(f, now, OpenWindowDuration) == {};
      assert ErrorsAttachedTo(f, now, PromoCode) == {};
    }
  }

  // ---------------------------------------------------------------------
  // The individual rules, read off the complete report

  /** The future test is strict: a date equal to `now` is refused. An
      absent date gets only its required message. */
  lemma FutureRuleIsStrict(f: Types.TicketReleaseForm, now: int)
    ensures FieldError(Open, OpenFutureMessage) in Validate(f, now) <==> f.open.Some? && f.open.value <= now
    ensures FieldError(Close, CloseFutureMessage) in Validate(f, now) <==> f.close.Some? && f.close.value <= now
  {
    InReport(f, now, FieldError(Open, OpenFutureMessage));
    InReport(f, now, FieldError(Close, CloseFutureMessage));
  }

  /** `close >= open` is inclusive; an absent open fails it for a present close. */
  lemma CloseAfterOpenRule(f: Types.TicketReleaseForm, now: int)
    ensures FieldError(Close, CloseAfterOpenMessage) in Validate(f, now) <==>
      f.close.Some? && (f.open.None? || f.close.value < f.open.value)
  {
    InReport(f, now, FieldError(Close, CloseAfterOpenMessage));
  }

  /** The event-date rule, reported on `open`: refused when a date is
      missing or open or close lies after the event; equality is accepted. */
  lemma EventDateRule(f: Types.TicketReleaseForm, now: int)
    ensures FieldError(Open, EventDateMessage) in Validate(f, now) <==>
      || f.event_date.None? || f.open.None? || f.close.None?
      || f.open.value > f.event_date.value || f.close.value > f.event_date.value
  {
    InReport(f, now, FieldError(Open, EventDateMessage));
  }

  /** The open-window rule, reported on `open_window_duration`: refused when
      open is after close, when a value is missing or the duration is zero,
      or when the window (minutes converted to milliseconds) ends after close. */
  lemma OpenWindowRule(f: Types.TicketReleaseForm, now: int)
    ensures FieldError(OpenWindowDuration, OpenWindowMessage) in Validate(f, now) <==>
      || f.open.None? || f.close.None? || f.open_window_duration.None?
      || f.open_window_duration.value == 0
      || f.open.value > f.close.value
      || f.open.value + f.open_window_duration.value * 60000 > f.close.value
  {
    InReport(f, now, FieldError(OpenWindowDuration, OpenWindowMessage));
  }

  /** With any duration of at least one minute, a release that opens and
      closes at the same instant passes the inclusive `close >= open` rule
      and still fails the open-window rule. */
  lemma OpenEqualsCloseFailsWindow(f: Types.TicketReleaseForm, now: int)
    requires f.open.Some? && f.open == f.close
    requires f.open_window_duration.Some? && f.open_window_duration.value >= 1
    ensures FieldError(Close, CloseAfterOpenMessage) !in Validate(f, now)
    ensures FieldError(OpenWindowDuration, OpenWindowMessage) in Validate(f, now)
    ensures !Acceptable(f, now)
  {
    CloseAfterOpenRule(f, now);
    OpenWindowRule(f, now);
    ValidateAcceptsExactly(f, now);
  }

  /** The promo code is checked only on a reserved release, and then must be acceptable. */
  lemma PromoCodeRule(f: Types.TicketReleaseForm, now: int)
    ensures !f.is_reserved ==> ErrorsOn(Validate(f, now), PromoCode) == {}
    ensures f.is_reserved ==>
      (ErrorsOn(Validate(f, now), PromoCode) == {} <==> PromoCodeAcceptable(f.promo_code))
  {
    ReportOnField(f, now, PromoCode);
  }

  /** Length bounds in UTF-16 code units: name 3..80 and description
      5..500; an empty one is reported only as missing. */
  lemma LengthBounds(f: Types.TicketReleaseForm, now: int)
    ensures ErrorsOn(Validate(f, now), Name) == {} <==> 3 <= Utf16Length(f.name) <= 80
    ensures ErrorsOn(Validate(f, now), Description) == {} <==> 5 <= Utf16Length(f.description) <= 500
    ensures f.name == "" ==> ErrorsOn(Validate(f, now), Name) == {FieldError(Name, "Name is required")}
  {
    ReportOnField(f, now, Name);
    ReportOnField(f, now, Description);
  }

  /** The release method, the open-window duration and the per-user
      maximum must each be present and at least 1; an absent value is
      reported as missing instead. */
  lemma MinimumOneBounds(f: Types.TicketReleaseForm, now: int)
    ensures ErrorsOn(Validate(f, now), TicketReleaseMethodId) == {} <==>
      f.ticket_release_method_id.Some? && f.ticket_release_method_id.value >= 1
    ensures ErrorsOn(Validate(f, now), MaxTicketsPerUser) == {} <==>
      f.max_tickets_per_user.Some? && f.max_tickets_per_user.value >= 1
    ensures FieldError(MaxTicketsPerUser, "Max Tickets Per User is required") in Validate(f, now)
            <==> f.max_tickets_per_user.None?
    ensures FieldError(TicketReleaseMethodId, "Ticket Release Method ID is required") in Validate(f, now)
            <==> f.ticket_release_method_id.None? || f.ticket_release_method_id.value < 1
    ensures FieldError(OpenWindowDuration, "Open Window Duration must be greater than or equal to 1")
              in Validate(f, now)
            <==> f.open_window_duration.Some? && f.open_window_duration.value < 1
    ensures FieldError(OpenWindowDuration, "Open Window Duration is required") in Validate(f, now)
            <==> f.open_window_duration.None?
  {
    ReportOnField(f, now, TicketReleaseMethodId);
    ReportOnField(f, now, MaxTicketsPerUser);
    InReport(f, now, FieldError(MaxTicketsPerUser, "Max Tickets Per User is required"));
    InReport(f, now, FieldError(TicketReleaseMethodId, "Ticket Release Method ID is required"));
    InReport(f, now, FieldError(OpenWindowDuration, "Open Window Duration must be greater than or equal to 1"));
    InReport(f, now, FieldError(OpenWindowDuration, "Open Window Duration is required"));
  }

  /** The event date, notification method and cancellation policy are required. */
  lemma RequiredFields(f: Types.TicketReleaseForm, now: int)
    ensures ErrorsOn(Validate(f, now), EventDate) == {} <==> f.event_date.Some?
    ensures ErrorsOn(Validate(f, now), NotificationMethod) == {} <==> |f.notification_method| > 0
    ensures ErrorsOn(Validate(f, now), CancellationPolicy) == {} <==> |f.cancellation_policy| > 0
  {
    ReportOnField(f, now, EventDate);
    ReportOnField(f, now, NotificationMethod);
    ReportOnField(f, now, CancellationPolicy);
  }

  /** The initial release form is refused whatever the time: its release
      method, open-window duration and per-user maximum are all 0, the zero
      duration fails the window rule, and it has no event date. Its open
      time is the load time, so once that time has passed it is not in the
      future either. */
  lemma InitialReleaseFormRejected(loadTime: int, now: int)
    ensures var v := Validate(Types.TicketReleaseFormInitialValues(loadTime), now);
      && FieldError(TicketReleaseMethodId, "Ticket Release Method ID is required") in v
      && FieldError(OpenWindowDuration, "Open Window Duration must be greater than or equal to 1") in v
      && FieldError(MaxTicketsPerUser, "Max Tickets Per User must be greater than or equal to 1") in v
      && FieldError(OpenWindowDuration, OpenWindowMessage) in v
      && FieldError(EventDate, "Event Date is required") in v
      && ErrorsOn(v, PromoCode) == {}
      && (loadTime <= now ==> FieldError(Open, OpenFutureMessage) in v)
  {
    var f := Types.TicketReleaseFormInitialValues(loadTime);
    MinimumOneBounds(f, now);
    OpenWindowRule(f, now);
    PromoCodeRule(f, now);
    InReport(f, now, FieldError(EventDate, "Event Date is required"));
    FutureRuleIsStrict(f, now);
  }

  // ---------------------------------------------------------------------
  // The event-date message as written

  /** What validating the form comes to: a report, or an exception that
      rejects the whole validation. */
  datatype Outcome = Reported(errors: set<Error>) | Threw

  /** The schema as written. An absent event date always fails the
      event-date test, whose message is built by formatting `event_date`;
      formatting an absent date throws, so validation throws instead of
      reporting anything. */
  function ValidateAsWritten(f: Types.TicketReleaseForm, now: int): (o: Outcome)
    ensures f.event_date.Some? ==> o == Reported(Validate(f, now))
  {
    if f.event_date.None? then Threw
    else Reported(Validate(f, now))
  }

  /** As written, validation reports no error exactly for the acceptable
      releases, as intended; only the refusals of a release without an
      event date are lost to the throw. */
  lemma AsWrittenAcceptsExactly(f: Types.TicketReleaseForm, now: int)
    ensures ValidateAsWritten(f, now) == Reported({}) <==> Acceptable(f, now)
    ensures ValidateAsWritten(f, now) == Threw <==> f.event_date.None?
  {
    ValidateAcceptsExactly(f, now);
  }

  /** A missing event date is never reported as written: the required
      message and the event-date rule are both in the intended report, but
      the validation throws instead. The initial form has no event date. */
  lemma MissingEventDateThrows(f: Types.TicketReleaseForm, now: int)
    requires f.event_date.None?
    ensures ValidateAsWritten(f, now) == Threw
    ensures FieldError(EventDate, "Event Date is required") in Validate(f, now)
    ensures FieldError(Open, EventDateMessage) in Validate(f, now)
  {
    InReport(f, now, FieldError(EventDate, "Event Date is required"));
    EventDateRule(f, now);
  }
}

=== FILE: types.dfy ===
/**
 * The shapes exchanged by the event-creation workflow: the form shapes the
 * wizard edits, as the form library hands them to validation (dates as
 * form strings, here already read as epoch milliseconds; a cleared date or
 * number input, or a missing key, is None; a text field keeps "", which
 * the validation rules treat as absent, since the form library turns ""
 * into undefined),
 * the post-request shapes sent to the backend (dates as numeric
 * timestamps), the composite workflow requests, the two enumerations and
 * the initial form values.
 */
module Types {
  import opened Common

  /** Delivery channel for release notifications (spelled
      `NoticicationMethod` in the source). */
  datatype NotificationMethod = Email | Sms {
    function Value(): string {
      match this
      case Email => "email"
      case Sms => "sms"
    }
  }

  /** Refund rule of a release (spelled `CacellationPolicy` in the source). */
  datatype CancellationPolicy = FullRefund | NoRefund {
    function Value(): string {
      match this
      case FullRefund => "full_refund"
      case NoRefund => "no_refund"
    }
  }

  /** The string values of both enumerations are exactly the four listed,
      and distinct members have distinct values. */
  lemma EnumerationValues()
    ensures forall m: NotificationMethod :: m.Value() in {"email", "sms"}
    ensures forall m: NotificationMethod, n: NotificationMethod :: m.Value() == n.Value() ==> m == n
    ensures forall p: CancellationPolicy :: p.Value() in {"full_refund", "no_refund"}
    ensures forall p: CancellationPolicy, q: CancellationPolicy :: p.Value() == q.Value() ==> p == q
  {
    assert "email" != "sms" by { assert "email"[0] != "sms"[0]; }
    assert "full_refund" != "no_refund" by { assert "full_refund"[0] != "no_refund"[0]; }
  }

  /** A Google Places selection; validation looks only at its `label`
      (`labelText` here, `label` being a Dafny keyword). */
  datatype PlaceOption = PlaceOption(labelText: string)

  /** The step-1 form. `date` is the datetime-local string, None when it
      is empty; `organization_id` is None when the team selection is cleared. */
  datatype EventForm = EventForm(
    name: string,
    description: string,
    date: Option<int>,
    location: Option<PlaceOption>,
    organization_id: Option<int>,
    is_private: bool)

  datatype EventPostReq = EventPostReq(
    name: string,
    description: string,
    date: int,
    location: string,
    organization_id: int,
    is_private: bool)

  const EventFormInitialValues: EventForm :=
    EventForm("", "", None, None, Some(1), false)

  /** The prefilled test form; its date is the module-load time `loadTime`. */
  function EventFormInitialTestValues(loadTime: int): EventForm {
    EventForm("Test Event", "Test Event Description", Some(loadTime),
              Some(PlaceOption("Test Location")), Some(1), false)
  }

  /** The step-2 form. `event_date`, `open` and `close` are date strings,
      None when absent; the number inputs are None when cleared. */
  datatype TicketReleaseForm = TicketReleaseForm(
    event_date: Option<int>,
    name: string,
    description: string,
    open: Option<int>,
    close: Option<int>,
    ticket_release_method_id: Option<int>,
    open_window_duration: Option<int>,
    max_tickets_per_user: Option<int>,
    notification_method: string,
    cancellation_policy: string,
    is_reserved: bool,
    promo_code: Option<string>)

  datatype TicketReleasePostReq = TicketReleasePostReq(
    event_id: Option<int>,
    name: string,
    description: string,
    open: int,
    close: int,
    open_window_duration: Option<int>,
    max_tickets_per_user: int,
    notification_method: string,
    cancellation_policy: string,
    ticket_release_method_id: int,
    is_reserved: bool,
    promo_code: Option<string>)

  /** The initial release form. Open and close are both the module-load
      time `loadTime`; there is no event date. */
  function TicketReleaseFormInitialValues(loadTime: int): TicketReleaseForm {
    TicketReleaseForm(None, "", "", Some(loadTime), Some(loadTime), Some(0), Some(0), Some(0),
                      "EMAIL", "FULL_REFUND", false, Some(""))
  }

  datatype TicketTypeForm = TicketTypeForm(
    id: Option<int>,
    name: string,
    description: string,
    price: int,
    quantity_total: int)

  datatype TicketTypePostReq = TicketTypePostReq(
    id: Option<int>,
    event_id: Option<int>,
    ticket_release_id: Option<int>,
    name: string,
    description: string,
    price: int,
    quantity_total: int)

  const TicketTypeFormInitialValues: TicketTypeForm :=
    TicketTypeForm(None, "Default", "", 0, 0)

  datatype PromoCodeAccessForm = PromoCodeAccessForm(promo_code: string)

  const PromoCodeAccessFormInitialValues: PromoCodeAccessForm :=
    PromoCodeAccessForm("")

  /** One event, its first ticket release and the release's ticket types, in order. */
  datatype CompleteEventWorkflowPostReq = CompleteEventWorkflowPostReq(
    event: EventPostReq,
    ticket_release: TicketReleasePostReq,
    ticket_types: seq<TicketTypePostReq>)

  /** The same request for a release added to an existing event. */
  datatype CompleteTicketReleaseWorkflowPostReq = CompleteTicketReleaseWorkflowPostReq(
    ticket_release: TicketReleasePostReq,
    ticket_types: seq<TicketTypePostReq>)
}
